=== FILE: README.md ===
# house-budget core, modelled in Dafny

This project models the parts of the household-finance tracker that compute
something:

- **The cash-flow projection engine** (`runSimulation`). It starts from an
  initial balance and walks every calendar day from a start date to an end
  date inclusive. On each day it fires the monthly recurring transactions whose
  `recurringDay` equals the day of month, then the one-off what-if events dated
  that day. Income adds its amount, expense subtracts it, and a transfer only
  records the event. The engine returns one `{date, balance, events}` record
  per day. It rejects missing dates, a start that is not before the end, and a
  negative initial balance, checked in that order.
- **Transfers between budget accounts** (`createTransfer`). The action runs a
  five-step validation cascade. Then, in one database transaction, it moves the
  amount from one account to the other and writes one `transfer` record per
  account. As the code stands, that committed transfer is then reported as a
  database error (see Findings).
- **Recording an expense or an income** (`createExpense`, `createIncome`). The
  form is validated against the expense schema. Then, in one database
  transaction, the action writes one record and moves the named account's
  balance down (expense) or up (income).

Files:

- `common.dfy`: `Option`, `Result`, and JavaScript's `text || fallback` on
  optional strings.
- `calendar.dfy`: Gregorian days, leap years, `NextDay`, the chronological
  order `Before`, and the ghost `DayNumber` (days since 1970-01-01). `NextDay`
  stands for `setDate(getDate() + 1)`; `DayNumber` shows it advances by exactly
  one day.
- `schema.dfy`: the database enumerations, the account and transaction rows,
  and the sum of all balances in an account table.
- `simulation.dfy`: the engine as a pure recursion over days (`Walk`) and a
  declarative description of its output (`IsTrajectory`).
- `simulation_loop.dfy`: the engine written as the source's loop, with a
  mutable balance and inner passes over the firing items. It is proved to
  return exactly what the functional engine returns.
- `simulation_properties.dfy`: properties that relate days, runs, or concrete
  inputs.
- `transfers.dfy`: `createTransfer` over an abstract `budgetAccount` and
  `transaction` store.
- `entries.dfy`: `createExpense` and `createIncome` over an abstract `account`
  and `transaction` store. This is a separate store from the transfer one,
  because the source writes to a different table here.

Representation choices:

- Money is `int` (whole yen).
- Dates are whole calendar days (`CalendarDate`, always a valid Gregorian
  day).
- A missing argument (`undefined`/`null`) is `None`.
- The server clock that `new Date()` reads for `lastUpdated` is a parameter:
  `now` for an expense or income. A transfer reads the clock once per balance
  update, so it takes two instants, `debitedAt` and `creditedAt`, and nothing
  relates them.
- A database transaction becomes one function: every write happens, or the
  returned store is the one passed in.

The model follows the code as written:

- Items carry a `TransactionType` of income, expense or transfer; a
  transfer-typed item is recorded as an event but leaves the balance
  unchanged.
- `runSimulation` does not check amounts or recurring days. The model accepts
  any integer for both: a non-positive amount is applied as given, and a day
  outside 1–31 simply never fires.

## Model

| member | source | states |
|---|---|---|
| Calendar.NextDay | src/lib/actions/simulation.actions.ts:146 | Stepping a day with `setDate(getDate() + 1)` gives a later valid day. It is the first of a month exactly when the old day was the month's last, and it changes the year exactly on 31 December. |
| Calendar.NextDayIsSuccessor | src/lib/actions/simulation.actions.ts:146 | The step advances the day count by exactly one, across month and year ends and in leap years. |
| Calendar.NoDayBetween | src/lib/actions/simulation.actions.ts:146 | No calendar day lies strictly between a day and the one after it, so stepping never skips a day. |
| Calendar.BeforeIffEarlierNumber | src/lib/actions/simulation.actions.ts:85 | Comparing two days by year, month and day agrees with comparing their positions on the time line; equal positions mean equal days. |
| Simulation.ErrorMessagesDistinct | src/lib/actions/simulation.actions.ts:55-74 | Each of the three rejections returns its own message, so the message identifies which check failed. |
| Simulation.RecurringForDay | src/lib/actions/simulation.actions.ts:89-92 | A recurring transaction is selected for a day iff it is in the input and its `recurringDay` equals the day of month. There is no clamping to the month's end. |
| Simulation.WhatIfForDay | src/lib/actions/simulation.actions.ts:112-119 | A what-if event is selected for a day iff it is in the input and its year, month and day all equal the day's. |
| Simulation.DayEvents | src/lib/actions/simulation.actions.ts:94-136 | A day's events are the firing recurring items, tagged `recurring`, followed by the firing what-if items, tagged `whatif`, each in its selected order. Each event copies the item's amount and type, and its description falls back to the default when the item's is absent or empty. |
| Simulation.ApplyIsCreditsMinusDebits | src/lib/actions/simulation.actions.ts:94-100 | Applying a day's events one by one leaves the balance plus the income amounts minus the expense amounts; transfer events contribute nothing. |
| Simulation.WalkShape | src/lib/actions/simulation.actions.ts:83-147 | The walk from a day through the end date has one record per day, numbered consecutively from the first day (none when the first day is past the end). Each record holds that day's events, and its balance is the previous one plus credits minus debits. |
| Simulation.RunSimulation | src/lib/actions/simulation.actions.ts:46-152 | Missing dates, then a start not before the end (equal dates included), then a negative initial balance each give their own failure, in that order. Otherwise the run succeeds with a dense, consecutive trajectory that ends on the end date, and each balance continues the previous one (the initial balance for day one) by that day's credits minus debits. |
| SimulationLoop.ProcessDay | src/lib/actions/simulation.actions.ts:86-136 | The two inner loops, over the firing recurring items and then the firing what-if items, collect exactly the day's events and leave the running balance at those events applied in order. |
| SimulationLoop.Simulate | src/lib/actions/simulation.actions.ts:53-152 | The loop over days with a mutable running balance returns exactly the functional engine's result, on failures and on success. |
| SimulationProperties.RunSimulationIsTheTrajectory | src/lib/actions/simulation.actions.ts:77-152 | For valid inputs, the engine's output is the only sequence that meets the trajectory description. |
| SimulationProperties.TrajectoryCoversRange | src/lib/actions/simulation.actions.ts:83-147 | A trajectory's dates are strictly ascending, lie within the range, and end on the end date. Every calendar day of the range appears in it. |
| SimulationProperties.RecurringForDayAppend | src/lib/actions/simulation.actions.ts:90-92 | Selecting recurring items distributes over concatenating inputs, so selection keeps input order. |
| SimulationProperties.WhatIfForDayAppend | src/lib/actions/simulation.actions.ts:112-119 | Selecting what-if events distributes over concatenating inputs, so selection keeps input order. |
| SimulationProperties.RecurringFiresOnItsDayOnly | src/lib/actions/simulation.actions.ts:89-109 | A recurring item is recorded on every day whose day of month is its `recurringDay`. It is never selected in a month with fewer days than that. |
| SimulationProperties.WhatIfFiresOnItsDateOnly | src/lib/actions/simulation.actions.ts:112-136 | A what-if event is selected on a day iff that day is its date, and on that day it is recorded. |
| SimulationProperties.EmptyInputsGiveFlatTrajectory | src/lib/actions/simulation.actions.ts:80-147 | With no recurring items and no what-if events, every record has the initial balance and no events. |
| SimulationProperties.TransferAddsNoCreditOrDebit | src/lib/actions/simulation.actions.ts:96-100 | Adding a transfer-typed recurring item adds one event on the days it fires and changes neither the day's credits nor its debits. |
| SimulationProperties.TransferItemLeavesBalancesUnchanged | src/lib/actions/simulation.actions.ts:94-109 | Adding a transfer-typed recurring item changes neither the outcome nor any date or balance of the trajectory. It still appears as an event on the days it fires. |
| SimulationProperties.TransferEventLeavesBalancesUnchanged | src/lib/actions/simulation.actions.ts:112-136 | Adding a transfer-typed what-if event changes neither the outcome nor any date or balance of the trajectory. It still appears as an event on its date. |
| SimulationProperties.RecurringExpenseScenario | src/lib/actions/simulation.actions.ts:89-109 | Over 2024-01-01..03 from 1000, a recurring expense of 200 on day 2 gives balances 1000, 800, 800. The event is recorded only on the 2nd, with the default description. |
| SimulationProperties.WhatIfIncomeScenario | src/lib/actions/simulation.actions.ts:112-136 | Over the same range, a what-if income of 500 on 2024-01-03 gives 1000, 1000, 1500. Its empty description is replaced by the default. |
| SimulationProperties.Day31InFebruaryScenario | src/lib/actions/simulation.actions.ts:89-92 | Over February 2024 (29 days), a recurring expense on day 31 never fires. The 29 records all keep the initial balance and have no events. |
| SimulationProperties.SameDayOrderScenario | src/lib/actions/simulation.actions.ts:94-143 | A recurring expense and a what-if income on the same day are recorded recurring first, and the balance reflects both. |
| Transfers.CreateTransfer | src/lib/actions/account.actions.ts:19-121 | The rejections come in source order: a falsy field (empty id, zero amount, no date), then the same account on both sides, then an amount of zero or less, then a missing account, then a source balance below the amount. Any rejection leaves the store unchanged, and the transfer succeeds exactly when every check passes. On success the source loses and the destination gains the amount, the source's `lastUpdated` becomes the first clock reading and the destination's the second, every other account is unchanged, and exactly two `transfer` records are appended. They share the date and amount, have `isRecurring` false, and carry the default descriptions naming the other account. This is the intended reply; the code as it stands reports the committed transfer as a failure (see Findings). |
| Transfers.CreateTransferAsWritten | src/lib/actions/account.actions.ts:121-141 | As the code stands, no call reports success. A transfer that passes every check keeps its committed writes but is reported as a database error; every rejected call gives exactly the intended action's reply, since those checks return before the redirect. |
| Transfers.AsWrittenReportsCommittedTransferAsFailure | src/lib/actions/account.actions.ts:71-141 | Whenever the checks pass, the code as it stands debits the source, appends both records, and still returns the database-error message. |
| Transfers.CommittedTransferReportedAsDatabaseError | src/lib/actions/account.actions.ts:63-141 | Moving 300 from an account holding 1000 to an empty one leaves 700 and 300 and two records, yet reports a database error. |
| Transfers.ErrorMessagesDistinct | src/lib/actions/account.actions.ts:24-68 | The five rejections and the database error each carry their own message, so the message identifies the failure. |
| Transfers.TransferConservesTotal | src/lib/actions/account.actions.ts:71-92 | A transfer, successful or rejected, leaves the sum of all budget-account balances unchanged. |
| Transfers.TransferKeepsBalancesNonNegative | src/lib/actions/account.actions.ts:62-81 | Because of the balance check, any account with a non-negative balance before a transfer still exists and has a non-negative balance after it, for transfers applied one at a time. |
| Transfers.TransferOfWholeBalance | src/lib/actions/account.actions.ts:63-81 | A source balance exactly equal to the amount is accepted and left at zero. |
| Entries.FieldErrors | src/lib/validations/transaction.ts:5-14 | A field is reported iff it breaks its schema constraint: date present, amount positive, non-empty category and account ids, payment method present, optional recurring day within 1–31. The list is empty iff the form is valid. |
| Entries.CreateExpense | src/lib/actions/transaction.actions.ts:12-54 | An invalid form gives the field errors, and a missing account gives a database error (the created record is rolled back). Either failure leaves the store unchanged. A valid form for an existing account always succeeds. On success exactly one `expense` record with the form's fields is appended. The account's balance drops by the amount, possibly below zero, and every other account is unchanged. |
| Entries.CreateIncome | src/lib/actions/transaction.actions.ts:102-144 | It uses the same validation and the same atomicity as an expense, and it succeeds exactly when the form is valid and the account exists. On success exactly one `income` record is appended, the account's balance rises by the amount, and every other account is unchanged. |
| Entries.ErrorMessagesDistinguishKinds | src/lib/actions/transaction.actions.ts:20-27 | An invalid form and a database error carry different messages, while every invalid form carries the same one. |
| Entries.EntriesMoveTotalByAmount | src/lib/actions/transaction.actions.ts:33-54 | A successful expense lowers the sum of all balances by exactly the amount; a successful income raises it by exactly the amount. |
| Entries.IncomeUndoesExpenseOnBalances | src/lib/actions/transaction.actions.ts:135-143 | Recording a form as an income after it succeeded as an expense succeeds and restores every account's balance. It leaves two more records in the log. |
| Entries.ExpenseCanOverdraw | src/lib/actions/transaction.actions.ts:45-53 | There is no sufficient-balance check: an expense of 300 from a balance of 100 succeeds and leaves -200. |

## Left out

- Time of day, time zones and daylight saving. The source compares full
  timestamps and matches days with local-time getters. The model compares
  whole calendar days, which assumes the start and end share a time of day, as
  the simulation page's defaults do.
- Invalid `Date` objects (`NaN` timestamps). A present date is always a valid
  calendar day here.
- Floating-point money: amounts and balances are exact integers, so rounding
  and `NaN` amounts are not modelled.
- The `catch` branches, except where noted here. Only `runSimulation`'s
  `catch` fires solely on runtime faults; it is not modelled. In
  `createExpense` and `createIncome`, the `catch` runs after every successful
  call, where it re-throws the redirect error (see the navigation line
  below). It also turns a failed database write into the database-error reply,
  which is modelled for a missing account only. `createTransfer`'s `catch` is
  reached on every committed transfer (see Findings). The `details` text of a
  `catch` reply, and the Zod-error and unexpected-error replies, are not
  modelled.
- The `console.error` logging in the `catch` branches and on a failed
  validation: it has no effect on the reply or the store.
- Database failures other than a missing account: foreign-key checks on
  `categoryId` (including the fixed `transfer` category), unique constraints,
  and connection errors. The transfer's writes are assumed to succeed once its
  checks pass.
- `getRecurringTransactions`, a thin query wrapper.
- `generateSampleWhatIfEvents`, whose output depends on the current date.
- The Zod library's parsing and coercion. `Entries.FieldErrors` keeps only the
  schema's constraints, over a form that is already coerced, and reports
  failing fields in schema order rather than as Zod's error object.
- `revalidatePath` and navigation. In `createExpense` and `createIncome`,
  `redirect` throws and the `catch` re-throws that error, so a successful
  action navigates to the dashboard; here it is a response with no error.
- Transfers.CreateTransfer: states the intended reply to a committed transfer
  (no error). The code as it stands returns the database-error reply instead;
  that behaviour is `Transfers.CreateTransferAsWritten` (see Findings).
- The concurrent `Promise.all` account lookups, which are read one after the
  other here.
- Concurrent requests. Each action is one step on the store, applied one at a
  time. In the source, `createTransfer`'s existence and balance checks read
  the database outside the database transaction, and the balance update is a
  relative decrement. Two concurrent transfers can therefore both pass the
  balance check and together overdraw the source account, which no lemma here
  rules out.
- Determinism of the engine is not stated as a lemma: every member here is a
  pure function, so equal inputs give equal outputs by construction.

## Findings

| source | as written | input that shows it | evidently intended | confidence | as-written member | corrected member |
|---|---|---|---|---|---|---|
| src/lib/actions/account.actions.ts:129-141 | `redirect('/dashboard')` throws inside the `try` after the database transaction has committed. The `catch` has no re-throw for the redirect error, so it returns `{success: false, error: 'データベースエラーが発生しました。'}` | any transfer that passes every check, e.g. 300 from an account holding 1000 to another existing account | re-throw the redirect error as `createExpense` does (transaction.actions.ts:64-69), so a committed transfer is a success that navigates to the dashboard | high; not executed | Transfers.CreateTransferAsWritten, Transfers.CommittedTransferReportedAsDatabaseError | Transfers.CreateTransfer |

=== FILE: calendar.dfy ===
/**
  Gregorian calendar days, the unit the cash-flow projection steps through.

  The source steps a JavaScript `Date` with `setDate(getDate() + 1)`, which
  normalises an overflowing day into the first day of the next month (or
  year). `NextDay` is that step on whole days; `DayNumber` counts days from
  1970-01-01 and is the measure that shows the step advances by exactly one.
 */
module Calendar {

  datatype Date = Date(year: int, month: int, day: int)

  /** Leap years of the proleptic Gregorian calendar. */
  predicate IsLeapYear(y: int)
  {
    y % 4 == 0 && (y % 100 != 0 || y % 400 == 0)
  }

  function DaysInMonth(y: int, m: int): (n: int)
    requires 1 <= m <= 12
    ensures 28 <= n <= 31
    ensures m == 2 ==> (n == 29 <==> IsLeapYear(y))
  {
    if m == 2 then (if IsLeapYear(y) then 29 else 28)
    else if m == 4 || m == 6 || m == 9 || m == 11 then 30
    else 31
  }

  function DaysInYear(y: int): int
  {
    if IsLeapYear(y) then 366 else 365
  }

  /** A real calendar day: what a JavaScript `Date` always denotes. */
  predicate Valid(d: Date)
  {
    1 <= d.month <= 12 && 1 <= d.day <= DaysInMonth(d.year, d.month)
  }

  type CalendarDate = d: Date | Valid(d) witness Date(1970, 1, 1)

  /** Chronological order of days: year, then month, then day of month. */
  predicate Before(a: Date, b: Date)
  {
    a.year < b.year
    || (a.year == b.year && a.month < b.month)
    || (a.year == b.year && a.month == b.month && a.day < b.day)
  }

  /** The following calendar day, as `setDate(getDate() + 1)` produces it. */
  function NextDay(d: CalendarDate): (r: CalendarDate)
    ensures Before(d, r)
    ensures r.day == 1 <==> d.day == DaysInMonth(d.year, d.month)
    ensures r.year != d.year <==> (d.month == 12 && d.day == 31)
  {
    if d.day < DaysInMonth(d.year, d.month) then Date(d.year, d.month, d.day + 1)
    else if d.month < 12 then Date(d.year, d.month + 1, 1)
    else Date(d.year + 1, 1, 1)
  }

  /** Days in the months of year `y` that precede month `m` (13 means the whole year). */
  function DaysBeforeMonth(y: int, m: int): (n: int)
    requires 1 <= m <= 13
  {
    var leap := if IsLeapYear(y) then 1 else 0;
    if m == 1 then 0
    else if m == 2 then 31
    else if m == 3 then 59 + leap
    else if m == 4 then 90 + leap
    else if m == 5 then 120 + leap
    else if m == 6 then 151 + leap
    else if m == 7 then 181 + leap
    else if m == 8 then 212 + leap
    else if m == 9 then 243 + leap
    else if m == 10 then 273 + leap
    else if m == 11 then 304 + leap
    else if m == 12 then 334 + leap
    else 365 + leap
  }

  /** Days from 1970-01-01 to January 1st of year `y` (negative before 1970). */
  ghost function DaysBeforeYear(y: int): int
    decreases if y >= 1970 then y - 1970 else 1970 - y
  {
    if y == 1970 then 0
    else if y > 1970 then DaysBeforeYear(y - 1) + DaysInYear(y - 1)
    else DaysBeforeYear(y + 1) - DaysInYear(y)
  }

  /** The number of a day counted from 1970-01-01, which is day 0. */
  ghost function DayNumber(d: CalendarDate): int
  {
    DaysBeforeYear(d.year) + DaysBeforeMonth(d.year, d.month) + d.day - 1
  }

  /** Each month's days close the gap to the start of the next month. */
  lemma MonthStep(y: int, m: int)
    requires 1 <= m <= 12
    ensures DaysBeforeMonth(y, m) + DaysInMonth(y, m) == DaysBeforeMonth(y, m + 1)
    ensures DaysBeforeMonth(y, 13) == DaysInYear(y)
  {
  }

  lemma YearStep(y: int)
    ensures DaysBeforeYear(y + 1) == DaysBeforeYear(y) + DaysInYear(y)
  {
  }

  /** Every day of an earlier year is numbered below January 1st of a later year. */
  lemma {:induction false} YearsAscend(y1: int, y2: int)
    requires y1 < y2
    ensures DaysBeforeYear(y1) + DaysInYear(y1) <= DaysBeforeYear(y2)
    decreases y2 - y1
  {
    YearStep(y1);
    if y1 + 1 < y2 {
      YearsAscend(y1 + 1, y2);
    }
  }

  /** `NextDay` advances the day number by exactly one. */
  lemma NextDayIsSuccessor(d: CalendarDate)
    ensures DayNumber(NextDay(d)) == DayNumber(d) + 1
  {
    MonthStep(d.year, d.month);
    if d.day == DaysInMonth(d.year, d.month) && d.month == 12 {
      YearStep(d.year);
    }
  }

  /** The chronological order of days is the order of their numbers. */
  lemma {:induction false} BeforeIffEarlierNumber(a: CalendarDate, b: CalendarDate)
    ensures Before(a, b) <==> DayNumber(a) < DayNumber(b)
    ensures a == b <==> DayNumber(a) == DayNumber(b)
  {
    if Before(a, b) {
      EarlierNumber(a, b);
    } else if Before(b, a) {
      EarlierNumber(b, a);
    }
  }

  lemma {:induction false} EarlierNumber(a: CalendarDate, b: CalendarDate)
    requires Before(a, b)
    ensures DayNumber(a) < DayNumber(b)
  {
    if a.year < b.year {
      YearsAscend(a.year, b.year);
      MonthStep(a.year, a.month);
      assert DaysBeforeMonth(a.year, a.month) + a.day <= DaysInYear(a.year);
    } else if a.month < b.month {
      MonthStep(a.year, a.month);
      assert DaysBeforeMonth(a.year, a.month) + a.day <= DaysBeforeMonth(a.year, b.month);
    }
  }

  /** No calendar day lies strictly between a day and the one after it. */
  lemma NoDayBetween(d: CalendarDate, e: CalendarDate)
    ensures !(Before(d, e) && Before(e, NextDay(d)))
  {
    NextDayIsSuccessor(d);
    BeforeIffEarlierNumber(d, e);
    BeforeIffEarlierNumber(e, NextDay(d));
  }
}

=== FILE: common.dfy ===
/**
  Small shared vocabulary: optional values, results of server actions, and
  JavaScript's `text || fallback` on optional strings.
 */
module Common {

  /** A value that may be absent (`undefined` or `null` in the source). */
  datatype Option<+T> = None | Some(value: T)

  /** Either the successful value of an action or the reason it was rejected. */
  datatype Result<+R, +E> = Success(value: R) | Failure(error: E)

  /** True when a JavaScript string is truthy: present and not empty. */
  predicate Truthy(text: Option<string>)
  {
    text.Some? && text.value != ""
  }

  /** `text || fallback`: the text when it is truthy, else the fallback. */
  function OrDefault(text: Option<string>, fallback: string): (r: string)
    ensures Truthy(text) ==> r == text.value
    ensures !Truthy(text) ==> r == fallback
  {
    if Truthy(text) then text.value else fallback
  }
}

=== FILE: entries.dfy ===
/**
  Recording an expense or an income (`createExpense`, `createIncome`).

  Both actions validate the submitted form against the same expense schema,
  then, inside one database transaction, create one transaction record and
  move the balance of the named account: down for an expense, up for an
  income. There is no check that the account holds enough money. If the
  account does not exist the balance update fails, the database transaction
  rolls back the record it had created, and the action reports a database
  error.
 */
module Entries {
  import opened Common
  import opened Calendar
  import opened Schema

  /** The tables these actions read and write: `account` and `transaction`. */
  datatype Store = Store(accounts: map<AccountId, Account>, transactions: seq<Transaction>)

  /** The form after coercion; `date` is absent when it does not parse as a date. */
  datatype EntryForm = EntryForm(
    date: Option<CalendarDate>,
    amount: int,
    categoryId: string,
    accountId: AccountId,
    paymentMethod: Option<PaymentMethod>,
    description: Option<string>,
    isRecurring: bool,
    recurringDay: Option<int>)

  /** The form fields the schema constrains. */
  datatype Field = DateField | AmountField | CategoryField | AccountField | PaymentMethodField | RecurringDayField

  datatype EntryError = InvalidInput(fields: seq<Field>) | DatabaseError

  /** The outcome of the action (no error means success) and the store afterwards. */
  datatype Response = Response(error: Option<EntryError>, store: Store)

  function ErrorMessage(e: EntryError): string
  {
    match e
    case InvalidInput(_) => "入力データに問題があります。"
    case DatabaseError => "データベースエラーが発生しました。"
  }

  /** The message tells an invalid form apart from a database error, but does not name the fields. */
  lemma ErrorMessagesDistinguishKinds(a: EntryError, b: EntryError)
    ensures ErrorMessage(a) == ErrorMessage(b) <==> a.InvalidInput? == b.InvalidInput?
  {
  }

  /** Whether the given field satisfies its constraint in the expense schema. */
  predicate FieldOk(f: EntryForm, field: Field)
  {
    match field
    case DateField => f.date.Some?
    case AmountField => f.amount > 0
    case CategoryField => |f.categoryId| >= 1
    case AccountField => |f.accountId| >= 1
    case PaymentMethodField => f.paymentMethod.Some?
    case RecurringDayField => f.recurringDay.None? || 1 <= f.recurringDay.value <= 31
  }

  const SchemaFields: seq<Field> :=
    [DateField, AmountField, CategoryField, AccountField, PaymentMethodField, RecurringDayField]

  /** The fields that fail validation, in schema order. */
  function FieldErrors(f: EntryForm): (r: seq<Field>)
    ensures forall field :: field in r <==> !FieldOk(f, field)
    ensures r == [] <==> forall field :: FieldOk(f, field)
  {
    EveryFieldChecked();
    var r := Select(f, SchemaFields);
    assert r != [] ==> r[0] in r;
    r
  }

  lemma EveryFieldChecked()
    ensures forall field :: field in SchemaFields
  {
    forall field
      ensures field in SchemaFields
    {
      match field
      case DateField => assert SchemaFields[0] == field;
      case AmountField => assert SchemaFields[1] == field;
      case CategoryField => assert SchemaFields[2] == field;
      case AccountField => assert SchemaFields[3] == field;
      case PaymentMethodField => assert SchemaFields[4] == field;
      case RecurringDayField => assert SchemaFields[5] == field;
    }
  }

  function Select(f: EntryForm, fields: seq<Field>): (r: seq<Field>)
    ensures forall field :: field in r <==> field in fields && !FieldOk(f, field)
  {
    if fields == [] then []
    else (if FieldOk(f, fields[0]) then [] else [fields[0]]) + Select(f, fields[1..])
  }

  /**
    The shared body of both actions: validate, create the record of type `t`,
    and move the account's balance by `delta` in the same database transaction.
   */
  function Record(s: Store, f: EntryForm, t: TransactionType, delta: int, now: Timestamp): Response
  {
    var errors := FieldErrors(f);
    if errors != [] then Response(Some(InvalidInput(errors)), s)
    else if f.accountId !in s.accounts then Response(Some(DatabaseError), s)
    else
      var entry := Transaction(f.date.value, f.amount, t, f.description, f.accountId,
                               f.categoryId, f.paymentMethod, f.isRecurring, f.recurringDay);
      var account := s.accounts[f.accountId];
      Response(None, Store(s.accounts[f.accountId := Account(account.name, account.balance + delta, now)],
                           s.transactions + [entry]))
  }

  /** Records an expense: one `expense` record, and the account's balance drops by the amount. */
  function CreateExpense(s: Store, f: EntryForm, now: Timestamp): (r: Response)
    ensures r.error.Some? ==> r.store == s
    ensures r.error.None? <==> (forall field :: FieldOk(f, field)) && f.accountId in s.accounts
    ensures r.error == Some(InvalidInput(FieldErrors(f))) <==> exists field :: !FieldOk(f, field)
    ensures r.error == Some(DatabaseError) <==> (forall field :: FieldOk(f, field)) && f.accountId !in s.accounts
    ensures r.error.None? ==>
              && f.accountId in s.accounts && f.date.Some?
              && r.store.transactions == s.transactions + [
                   Transaction(f.date.value, f.amount, Expense, f.description, f.accountId,
                               f.categoryId, f.paymentMethod, f.isRecurring, f.recurringDay)]
              && r.store.accounts.Keys == s.accounts.Keys
              && r.store.accounts[f.accountId].balance == s.accounts[f.accountId].balance - f.amount
              && r.store.accounts[f.accountId].name == s.accounts[f.accountId].name
              && r.store.accounts[f.accountId].lastUpdated == now
              && forall k :: k in s.accounts && k != f.accountId ==> r.store.accounts[k] == s.accounts[k]
  {
    Record(s, f, Expense, -f.amount, now)
  }

  /** Records an income: one `income` record, and the account's balance rises by the amount. */
  function CreateIncome(s: Store, f: EntryForm, now: Timestamp): (r: Response)
    ensures r.error.Some? ==> r.store == s
    ensures r.error.None? <==> (forall field :: FieldOk(f, field)) && f.accountId in s.accounts
    ensures r.error == Some(InvalidInput(FieldErrors(f))) <==> exists field :: !FieldOk(f, field)
    ensures r.error == Some(DatabaseError) <==> (forall field :: FieldOk(f, field)) && f.accountId !in s.accounts
    ensures r.error.None? ==>
              && f.accountId in s.accounts && f.date.Some?
              && r.store.transactions == s.transactions + [
                   Transaction(f.date.value, f.amount, Income, f.description, f.accountId,
                               f.categoryId, f.paymentMethod, f.isRecurring, f.recurringDay)]
              && r.store.accounts.Keys == s.accounts.Keys
              && r.store.accounts[f.accountId].balance == s.accounts[f.accountId].balance + f.amount
              && r.store.accounts[f.accountId].name == s.accounts[f.accountId].name
              && r.store.accounts[f.accountId].lastUpdated == now
              && forall k :: k in s.accounts && k != f.accountId ==> r.store.accounts[k] == s.accounts[k]
  {
    Record(s, f, Income, f.amount, now)
  }

  /** An expense lowers, and an income raises, the sum of all balances by exactly the amount. */
  lemma EntriesMoveTotalByAmount(s: Store, f: EntryForm, now: Timestamp)
    ensures CreateExpense(s, f, now).error.None? ==>
              TotalBalance(CreateExpense(s, f, now).store.accounts) == TotalBalance(s.accounts) - f.amount
    ensures CreateIncome(s, f, now).error.None? ==>
              TotalBalance(CreateIncome(s, f, now).store.accounts) == TotalBalance(s.accounts) + f.amount
  {
    if f.accountId in s.accounts {
      var a := s.accounts[f.accountId];
      TotalBalanceUpdate(s.accounts, f.accountId, Account(a.name, a.balance - f.amount, now));
      TotalBalanceUpdate(s.accounts, f.accountId, Account(a.name, a.balance + f.amount, now));
    }
  }

  /** Recording the same form as an income after it was recorded as an expense restores every balance. */
  lemma IncomeUndoesExpenseOnBalances(s: Store, f: EntryForm, now: Timestamp, later: Timestamp)
    requires CreateExpense(s, f, now).error.None?
    ensures var back := CreateIncome(CreateExpense(s, f, now).store, f, later);
      && back.error.None?
      && back.store.accounts.Keys == s.accounts.Keys
      && (forall k :: k in s.accounts ==> back.store.accounts[k].balance == s.accounts[k].balance)
      && |back.store.transactions| == |s.transactions| + 2
  {
  }

  /** There is no sufficient-balance check: an expense larger than the balance drives it negative. */
  lemma ExpenseCanOverdraw()
    ensures var s := Store(map["wallet" := Account("wallet", 100, 0)], []);
      var f := EntryForm(Some(Date(2024, 1, 5)), 300, "food", "wallet", Some(Cash), None, false, None);
      var r := CreateExpense(s, f, 1);
      r.error.None? && r.store.accounts["wallet"].balance == -200
  {
    var f := EntryForm(Some(Date(2024, 1, 5)), 300, "food", "wallet", Some(Cash), None, false, None);
    assert forall field :: FieldOk(f, field);
  }
}

=== FILE: schema.dfy ===
/**
  The rows of the database that the server actions read and write: accounts
  with a balance, and transaction records. The store itself (Prisma) is not
  modelled; each action module keeps its own abstract copy of the tables it
  touches.
 */
module Schema {
  import opened Common
  import opened Calendar

  /** The `TransactionType` enumeration of the database schema. */
  datatype TransactionType = Income | Expense | Transfer

  /** The `PaymentMethod` enumeration of the database schema. */
  datatype PaymentMethod = Cash | CreditCard | EMoney

  type AccountId = string

  /** An instant on the server clock, as `new Date()` reads it. */
  type Timestamp = int

  datatype Account = Account(name: string, balance: int, lastUpdated: Timestamp)

  /** One row of the `transaction` table. */
  datatype Transaction = Transaction(
    date: CalendarDate,
    amount: int,
    transactionType: TransactionType,
    description: Option<string>,
    accountId: AccountId,
    categoryId: string,
    paymentMethod: Option<PaymentMethod>,
    isRecurring: bool,
    recurringDay: Option<int>)

  /** The sum of the balances of all accounts in a table. */
  ghost function TotalBalance(accounts: map<AccountId, Account>): int
    decreases |accounts.Keys|
  {
    if accounts == map[] then 0
    else
      var k :| k in accounts;
      accounts[k].balance + TotalBalance(accounts - {k})
  }

  /** The total splits into any one account plus all the others. */
  lemma {:induction false} TotalBalanceRemove(accounts: map<AccountId, Account>, k: AccountId)
    requires k in accounts
    ensures TotalBalance(accounts) == accounts[k].balance + TotalBalance(accounts - {k})
    decreases |accounts.Keys|
  {
    var j :| j in accounts && TotalBalance(accounts) == accounts[j].balance + TotalBalance(accounts - {j});
    if j != k {
      var withoutJ := accounts - {j};
      var withoutK := accounts - {k};
      assert withoutJ.Keys == accounts.Keys - {j};
      assert withoutK.Keys == accounts.Keys - {k};
      assert k in withoutJ && j in withoutK;
      TotalBalanceRemove(withoutJ, k);
      assert withoutJ - {k} == withoutK - {j};
      TotalBalanceRemove(withoutK, j);
    }
  }

  /** Replacing one existing account changes the total by exactly its change in balance. */
  lemma TotalBalanceUpdate(accounts: map<AccountId, Account>, k: AccountId, a: Account)
    requires k in accounts
    ensures TotalBalance(accounts[k := a]) == TotalBalance(accounts) - accounts[k].balance + a.balance
  {
    var updated := accounts[k := a];
    TotalBalanceRemove(accounts, k);
    TotalBalanceRemove(updated, k);
    assert updated - {k} == accounts - {k};
  }
}

=== FILE: simulation.dfy ===
/**
  The cash-flow projection engine (`runSimulation`).

  Starting from an initial balance, the engine walks every calendar day from
  the start date to the end date inclusive. On each day it fires the monthly
  recurring transactions whose day of month matches, then the one-off what-if
  events dated that day; income adds its amount, expense subtracts it, any
  other type only records the event. It records the day, the running balance
  and the fired events.

  Here the walk is a pure recursion over days (`Walk`); the loop-shaped
  rendering of the same computation is `SimulationLoop.Simulate`.
 */
module Simulation {
  import opened Common
  import opened Calendar
  import opened Schema

  /** A monthly transaction that fires on day `recurringDay` of every month. */
  datatype RecurringTransaction = RecurringTransaction(
    id: string,
    amount: int,
    transactionType: TransactionType,
    recurringDay: int,
    description: Option<string>)

  /** A one-off hypothetical transaction on a given day. */
  datatype WhatIfEvent = WhatIfEvent(
    id: string,
    date: CalendarDate,
    amount: int,
    transactionType: TransactionType,
    description: Option<string>)

  /** Which input list an event of the trajectory came from. */
  datatype EventSource = Recurring | WhatIf

  datatype DayEvent = DayEvent(
    source: EventSource,
    description: string,
    amount: int,
    transactionType: TransactionType)

  /** One day of the trajectory: the balance after that day's events. */
  datatype DailyBalance = DailyBalance(date: CalendarDate, balance: int, events: seq<DayEvent>)

  /** The validations of the engine, in the order they are checked. */
  datatype SimulationError = MissingDates | StartNotBeforeEnd | NegativeInitialBalance

  function ErrorMessage(e: SimulationError): string
  {
    match e
    case MissingDates => "開始日と終了日を指定してください。"
    case StartNotBeforeEnd => "開始日は終了日より前の日付を指定してください。"
    case NegativeInitialBalance => "初期残高は0以上の値を指定してください。"
  }

  /** Every rejection carries its own message, so the message tells the caller which check failed. */
  lemma ErrorMessagesDistinct(a: SimulationError, b: SimulationError)
    ensures ErrorMessage(a) == ErrorMessage(b) <==> a == b
  {
  }

  /** Description recorded for a recurring transaction that has none. */
  const RecurringFallback: string := "定期取引"

  /** Description recorded for a what-if event that has none. */
  const WhatIfFallback: string := "一時的イベント"

  /** A recurring transaction fires when its day equals the day of month: no clamping. */
  predicate RecurringFires(t: RecurringTransaction, d: CalendarDate)
  {
    t.recurringDay == d.day
  }

  /** A what-if event fires when its year, month and day all equal the day's. */
  predicate WhatIfFires(e: WhatIfEvent, d: CalendarDate)
  {
    e.date.year == d.year && e.date.month == d.month && e.date.day == d.day
  }

  /** The recurring transactions that fire on `d`, in input order. */
  function RecurringForDay(ts: seq<RecurringTransaction>, d: CalendarDate): (r: seq<RecurringTransaction>)
    ensures |r| <= |ts|
    ensures forall t :: t in r <==> t in ts && RecurringFires(t, d)
  {
    if ts == [] then []
    else (if RecurringFires(ts[0], d) then [ts[0]] else []) + RecurringForDay(ts[1..], d)
  }

  /** The what-if events that fire on `d`, in input order. */
  function WhatIfForDay(ws: seq<WhatIfEvent>, d: CalendarDate): (r: seq<WhatIfEvent>)
    ensures |r| <= |ws|
    ensures forall e :: e in r <==> e in ws && WhatIfFires(e, d)
  {
    if ws == [] then []
    else (if WhatIfFires(ws[0], d) then [ws[0]] else []) + WhatIfForDay(ws[1..], d)
  }

  function RecurringEvent(t: RecurringTransaction): DayEvent
  {
    DayEvent(Recurring, OrDefault(t.description, RecurringFallback), t.amount, t.transactionType)
  }

  function WhatIfRecord(e: WhatIfEvent): DayEvent
  {
    DayEvent(WhatIf, OrDefault(e.description, WhatIfFallback), e.amount, e.transactionType)
  }

  function RecurringEvents(ts: seq<RecurringTransaction>): seq<DayEvent>
  {
    seq(|ts|, i requires 0 <= i < |ts| => RecurringEvent(ts[i]))
  }

  function WhatIfRecords(ws: seq<WhatIfEvent>): seq<DayEvent>
  {
    seq(|ws|, i requires 0 <= i < |ws| => WhatIfRecord(ws[i]))
  }

  /**
    The events of day `d`: every firing recurring transaction in input order,
    then every firing what-if event in input order.
   */
  function DayEvents(ts: seq<RecurringTransaction>, ws: seq<WhatIfEvent>, d: CalendarDate): (r: seq<DayEvent>)
    ensures |r| == |RecurringForDay(ts, d)| + |WhatIfForDay(ws, d)|
    ensures forall i :: 0 <= i < |r| ==> (r[i].source == Recurring <==> i < |RecurringForDay(ts, d)|)
    ensures forall i :: 0 <= i < |RecurringForDay(ts, d)| ==> r[i] == RecurringEvent(RecurringForDay(ts, d)[i])
    ensures forall i :: 0 <= i < |WhatIfForDay(ws, d)| ==> r[|RecurringForDay(ts, d)| + i] == WhatIfRecord(WhatIfForDay(ws, d)[i])
  {
    RecurringEvents(RecurringForDay(ts, d)) + WhatIfRecords(WhatIfForDay(ws, d))
  }

  /** The effect of one event on the running balance. */
  function Step(balance: int, e: DayEvent): int
  {
    match e.transactionType
    case Income => balance + e.amount
    case Expense => balance - e.amount
    case Transfer => balance
  }

  /** Applies a day's events to the balance one after the other. */
  function Apply(balance: int, es: seq<DayEvent>): int
    decreases |es|
  {
    if es == [] then balance else Apply(Step(balance, es[0]), es[1..])
  }

  /** The sum of the amounts of the income events. */
  function Credits(es: seq<DayEvent>): int
  {
    if es == [] then 0
    else (if es[0].transactionType == Income then es[0].amount else 0) + Credits(es[1..])
  }

  /** The sum of the amounts of the expense events. */
  function Debits(es: seq<DayEvent>): int
  {
    if es == [] then 0
    else (if es[0].transactionType == Expense then es[0].amount else 0) + Debits(es[1..])
  }

  /** Applying events one by one adds the credits and subtracts the debits. */
  lemma {:induction false} ApplyIsCreditsMinusDebits(balance: int, es: seq<DayEvent>)
    ensures Apply(balance, es) == balance + Credits(es) - Debits(es)
    decreases |es|
  {
    if es != [] {
      ApplyIsCreditsMinusDebits(Step(balance, es[0]), es[1..]);
    }
  }

  /**
    The records of the days from `d` through `end`, starting with `balance`:
    each day applies its events to the running balance and records them.
   */
  function Walk(d: CalendarDate, end: CalendarDate, balance: int,
                ts: seq<RecurringTransaction>, ws: seq<WhatIfEvent>): seq<DailyBalance>
    decreases DayNumber(end) - DayNumber(d) + 1
  {
    BeforeIffEarlierNumber(end, d);
    NextDayIsSuccessor(d);
    if Before(end, d) then []
    else
      var events := DayEvents(ts, ws, d);
      var after := Apply(balance, events);
      [DailyBalance(d, after, events)] + Walk(NextDay(d), end, after, ts, ws)
  }

  /**
    The walk from `d` through `end` has one record per day, numbered
    consecutively from `d`, each with that day's events and the previous
    balance (or `balance` for the first) plus credits minus debits.
   */
  lemma {:induction false} WalkShape(d: CalendarDate, end: CalendarDate, balance: int,
                                     ts: seq<RecurringTransaction>, ws: seq<WhatIfEvent>)
    ensures var r := Walk(d, end, balance, ts, ws);
      && (Before(end, d) <==> r == [])
      && (!Before(end, d) ==> |r| == DayNumber(end) - DayNumber(d) + 1)
      && (forall i :: 0 <= i < |r| ==> DayNumber(r[i].date) == DayNumber(d) + i)
      && (|r| > 0 ==> r[0].date == d)
      && (|r| > 0 ==> r[0].balance == balance + Credits(r[0].events) - Debits(r[0].events))
      && (forall i :: 0 < i < |r| ==> r[i].date == NextDay(r[i - 1].date))
      && (forall i :: 0 <= i < |r| ==> r[i].events == DayEvents(ts, ws, r[i].date))
      && (forall i :: 0 < i < |r| ==> r[i].balance == r[i - 1].balance + Credits(r[i].events) - Debits(r[i].events))
    decreases DayNumber(end) - DayNumber(d) + 1
  {
    BeforeIffEarlierNumber(end, d);
    NextDayIsSuccessor(d);
    if !Before(end, d) {
      var events := DayEvents(ts, ws, d);
      var after := Apply(balance, events);
      ApplyIsCreditsMinusDebits(balance, events);
      WalkShape(NextDay(d), end, after, ts, ws);
      var rest := Walk(NextDay(d), end, after, ts, ws);
      var r := Walk(d, end, balance, ts, ws);
      assert r == [DailyBalance(d, after, events)] + rest;
      BeforeIffEarlierNumber(end, NextDay(d));
    }
  }

  /**
    What a successful run returns: one record per day from `start` through
    `end`, consecutive and ascending, each carrying the events that fire on
    its day and the previous balance (the initial one for the first day) plus
    that day's credits minus its debits.
   */
  ghost predicate IsTrajectory(data: seq<DailyBalance>, start: CalendarDate, end: CalendarDate, initial: int,
                               ts: seq<RecurringTransaction>, ws: seq<WhatIfEvent>)
  {
    && |data| == DayNumber(end) - DayNumber(start) + 1
    && |data| > 0
    && data[0].date == start
    && (forall i :: 0 < i < |data| ==> data[i].date == NextDay(data[i - 1].date))
    && (forall i :: 0 <= i < |data| ==> data[i].events == DayEvents(ts, ws, data[i].date))
    && data[0].balance == initial + Credits(data[0].events) - Debits(data[0].events)
    && (forall i :: 0 < i < |data| ==> data[i].balance == data[i - 1].balance + Credits(data[i].events) - Debits(data[i].events))
  }

  /** The engine: validation in source order, then the walk over the days. */
  function RunSimulation(start: Option<CalendarDate>, end: Option<CalendarDate>, initialBalance: int,
                         ts: seq<RecurringTransaction>, ws: seq<WhatIfEvent>): (r: Result<seq<DailyBalance>, SimulationError>)
    ensures r == Failure(MissingDates) <==> start.None? || end.None?
    ensures r == Failure(StartNotBeforeEnd) <==> start.Some? && end.Some? && !Before(start.value, end.value)
    ensures r == Failure(NegativeInitialBalance) <==>
              start.Some? && end.Some? && Before(start.value, end.value) && initialBalance < 0
    ensures r.Success? <==> start.Some? && end.Some? && Before(start.value, end.value) && initialBalance >= 0
    ensures r.Success? ==> IsTrajectory(r.value, start.value, end.value, initialBalance, ts, ws)
    ensures r.Success? ==> r.value[|r.value| - 1].date == end.value
  {
    if start.None? || end.None? then Failure(MissingDates)
    else if !Before(start.value, end.value) then Failure(StartNotBeforeEnd)
    else if initialBalance < 0 then Failure(NegativeInitialBalance)
    else
      var data := Walk(start.value, end.value, initialBalance, ts, ws);
      WalkShape(start.value, end.value, initialBalance, ts, ws);
      var last := |data| - 1;
      BeforeIffEarlierNumber(data[last].date, end.value);
      Success(data)
  }
}

=== FILE: simulation_loop.dfy ===
/**
  The projection engine written the way the source computes it: one mutable
  running balance, a date stepped forward by one day, and for every day a
  pass over the firing recurring transactions followed by a pass over the
  firing what-if events. `Simulate` is proved to return exactly what the
  functional `Simulation.RunSimulation` returns.
 */
module SimulationLoop {
  import opened Common
  import opened Calendar
  import opened Schema
  import opened Simulation

  lemma {:induction false} ApplySnoc(balance: int, es: seq<DayEvent>, e: DayEvent)
    ensures Apply(balance, es + [e]) == Step(Apply(balance, es), e)
    decreases |es|
  {
    if es != [] {
      assert (es + [e])[1..] == es[1..] + [e];
      ApplySnoc(Step(balance, es[0]), es[1..], e);
    }
  }

  /** Applies one day's events to `balance` and collects them, as the two inner loops do. */
  method ProcessDay(ts: seq<RecurringTransaction>, ws: seq<WhatIfEvent>, d: CalendarDate, balance: int)
    returns (dayEvents: seq<DayEvent>, after: int)
    ensures dayEvents == DayEvents(ts, ws, d)
    ensures after == Apply(balance, dayEvents)
  {
    dayEvents := [];
    after := balance;
    var recurringForToday := RecurringForDay(ts, d);
    var j := 0;
    while j < |recurringForToday|
      invariant 0 <= j <= |recurringForToday|
      invariant |dayEvents| == j
      invariant forall i :: 0 <= i < j ==> dayEvents[i] == RecurringEvent(recurringForToday[i])
      invariant after == Apply(balance, dayEvents)
    {
      var t := recurringForToday[j];
      if t.transactionType == Income {
        after := after + t.amount;
      } else if t.transactionType == Expense {
        after := after - t.amount;
      }
      ApplySnoc(balance, dayEvents, RecurringEvent(t));
      dayEvents := dayEvents + [RecurringEvent(t)];
      j := j + 1;
    }
    assert dayEvents == RecurringEvents(recurringForToday);
    var recurringPart := dayEvents;
    var whatIfForToday := WhatIfForDay(ws, d);
    var k := 0;
    while k < |whatIfForToday|
      invariant 0 <= k <= |whatIfForToday|
      invariant |dayEvents| == |recurringPart| + k
      invariant dayEvents[..|recurringPart|] == recurringPart
      invariant forall i :: 0 <= i < k ==> dayEvents[|recurringPart| + i] == WhatIfRecord(whatIfForToday[i])
      invariant after == Apply(balance, dayEvents)
    {
      var e := whatIfForToday[k];
      if e.transactionType == Income {
        after := after + e.amount;
      } else if e.transactionType == Expense {
        after := after - e.amount;
      }
      ApplySnoc(balance, dayEvents, WhatIfRecord(e));
      dayEvents := dayEvents + [WhatIfRecord(e)];
      k := k + 1;
    }
    assert dayEvents == recurringPart + WhatIfRecords(whatIfForToday);
  }

  /** The engine as a loop over the days from start to end inclusive. */
  method Simulate(start: Option<CalendarDate>, end: Option<CalendarDate>, initialBalance: int,
                  ts: seq<RecurringTransaction>, ws: seq<WhatIfEvent>)
    returns (r: Result<seq<DailyBalance>, SimulationError>)
    ensures r == RunSimulation(start, end, initialBalance, ts, ws)
  {
    if start.None? || end.None? {
      return Failure(MissingDates);
    }
    if !Before(start.value, end.value) {
      return Failure(StartNotBeforeEnd);
    }
    if initialBalance < 0 {
      return Failure(NegativeInitialBalance);
    }
    var last := end.value;
    var dailyBalances: seq<DailyBalance> := [];
    var currentBalance := initialBalance;
    var currentDate := start.value;
    while !Before(last, currentDate)
      invariant dailyBalances + Walk(currentDate, last, currentBalance, ts, ws)
                == Walk(start.value, last, initialBalance, ts, ws)
      decreases DayNumber(last) - DayNumber(currentDate) + 1
    {
      BeforeIffEarlierNumber(last, currentDate);
      NextDayIsSuccessor(currentDate);
      var dayEvents, after := ProcessDay(ts, ws, currentDate, currentBalance);
      assert Walk(currentDate, last, currentBalance, ts, ws)
             == [DailyBalance(currentDate, after, dayEvents)] + Walk(NextDay(currentDate), last, after, ts, ws);
      dailyBalances := dailyBalances + [DailyBalance(currentDate, after, dayEvents)];
      currentBalance := after;
      currentDate := NextDay(currentDate);
    }
    assert Walk(currentDate, last, currentBalance, ts, ws) == [];
    assert dailyBalances == Walk(start.value, last, initialBalance, ts, ws);
    return Success(dailyBalances);
  }
}

=== FILE: simulation_properties.dfy ===
/**
  Properties of the projection engine that relate several days, several runs
  or concrete inputs: the trajectory is the only one meeting its
  description, it covers every day of the range in ascending order, filters
  keep input order, empty inputs give a flat trajectory, transfer-typed items
  never move the balance, and a recurring day past the end of a month never
  fires in that month.
 */
module SimulationProperties {
  import opened Common
  import opened Calendar
  import opened Schema
  import opened Simulation

  /** Two trajectories over the same inputs agree on every day. */
  lemma {:induction false} TrajectoriesAgreeAt(a: seq<DailyBalance>, b: seq<DailyBalance>,
                                               start: CalendarDate, end: CalendarDate, initial: int,
                                               ts: seq<RecurringTransaction>, ws: seq<WhatIfEvent>, i: nat)
    requires IsTrajectory(a, start, end, initial, ts, ws)
    requires IsTrajectory(b, start, end, initial, ts, ws)
    requires i < |a|
    ensures a[i] == b[i]
    decreases i
  {
    if i > 0 {
      TrajectoriesAgreeAt(a, b, start, end, initial, ts, ws, i - 1);
    }
  }

  /**
    For valid inputs the engine succeeds with exactly the sequences that meet
    the trajectory description, so that description determines the output.
   */
  lemma RunSimulationIsTheTrajectory(start: CalendarDate, end: CalendarDate, initial: int,
                                     ts: seq<RecurringTransaction>, ws: seq<WhatIfEvent>,
                                     data: seq<DailyBalance>)
    requires Before(start, end) && initial >= 0
    ensures RunSimulation(Some(start), Some(end), initial, ts, ws) == Success(data)
            <==> IsTrajectory(data, start, end, initial, ts, ws)
  {
    var r := RunSimulation(Some(start), Some(end), initial, ts, ws);
    if IsTrajectory(data, start, end, initial, ts, ws) {
      forall i | 0 <= i < |data|
        ensures data[i] == r.value[i]
      {
        TrajectoriesAgreeAt(data, r.value, start, end, initial, ts, ws, i);
      }
      assert data == r.value;
    }
  }

  /** The i-th record of a trajectory is the i-th day after the start. */
  lemma {:induction false} TrajectoryDayNumber(data: seq<DailyBalance>, start: CalendarDate, end: CalendarDate,
                                               initial: int, ts: seq<RecurringTransaction>, ws: seq<WhatIfEvent>, i: nat)
    requires IsTrajectory(data, start, end, initial, ts, ws)
    requires i < |data|
    ensures DayNumber(data[i].date) == DayNumber(start) + i
    decreases i
  {
    if i > 0 {
      TrajectoryDayNumber(data, start, end, initial, ts, ws, i - 1);
      NextDayIsSuccessor(data[i - 1].date);
    }
  }

  /**
    A trajectory's dates are strictly ascending, lie within the range, end on
    the end date, and include every calendar day of the range.
   */
  lemma TrajectoryCoversRange(data: seq<DailyBalance>, start: CalendarDate, end: CalendarDate, initial: int,
                              ts: seq<RecurringTransaction>, ws: seq<WhatIfEvent>)
    requires IsTrajectory(data, start, end, initial, ts, ws)
    ensures forall i, j :: 0 <= i < j < |data| ==> Before(data[i].date, data[j].date)
    ensures forall i :: 0 <= i < |data| ==> !Before(data[i].date, start) && !Before(end, data[i].date)
    ensures data[|data| - 1].date == end
    ensures forall d: CalendarDate :: !Before(d, start) && !Before(end, d) ==>
              exists i :: 0 <= i < |data| && data[i].date == d
  {
    forall i | 0 <= i < |data|
      ensures DayNumber(data[i].date) == DayNumber(start) + i
    {
      TrajectoryDayNumber(data, start, end, initial, ts, ws, i);
    }
    forall i, j | 0 <= i < j < |data|
      ensures Before(data[i].date, data[j].date)
    {
      BeforeIffEarlierNumber(data[i].date, data[j].date);
    }
    forall i | 0 <= i < |data|
      ensures !Before(data[i].date, start) && !Before(end, data[i].date)
    {
      BeforeIffEarlierNumber(data[i].date, start);
      BeforeIffEarlierNumber(end, data[i].date);
    }
    BeforeIffEarlierNumber(data[|data| - 1].date, end);
    forall d: CalendarDate | !Before(d, start) && !Before(end, d)
      ensures exists i :: 0 <= i < |data| && data[i].date == d
    {
      BeforeIffEarlierNumber(d, start);
      BeforeIffEarlierNumber(end, d);
      var i := DayNumber(d) - DayNumber(start);
      BeforeIffEarlierNumber(data[i].date, d);
    }
  }

  /** Selecting the recurring transactions of a day keeps input order: it distributes over concatenation. */
  lemma {:induction false} RecurringForDayAppend(a: seq<RecurringTransaction>, b: seq<RecurringTransaction>, d: CalendarDate)
    ensures RecurringForDay(a + b, d) == RecurringForDay(a, d) + RecurringForDay(b, d)
    decreases |a|
  {
    if a != [] {
      assert (a + b)[1..] == a[1..] + b;
      RecurringForDayAppend(a[1..], b, d);
    } else {
      assert a + b == b;
    }
  }

  /** Selecting the what-if events of a day keeps input order: it distributes over concatenation. */
  lemma {:induction false} WhatIfForDayAppend(a: seq<WhatIfEvent>, b: seq<WhatIfEvent>, d: CalendarDate)
    ensures WhatIfForDay(a + b, d) == WhatIfForDay(a, d) + WhatIfForDay(b, d)
    decreases |a|
  {
    if a != [] {
      assert (a + b)[1..] == a[1..] + b;
      WhatIfForDayAppend(a[1..], b, d);
    } else {
      assert a + b == b;
    }
  }

  /**
    A recurring transaction is recorded on every day whose day of month is its
    `recurringDay`, and is never selected in a month too short to have that day.
   */
  lemma RecurringFiresOnItsDayOnly(data: seq<DailyBalance>, start: CalendarDate, end: CalendarDate, initial: int,
                                   ts: seq<RecurringTransaction>, ws: seq<WhatIfEvent>, t: RecurringTransaction, i: nat)
    requires IsTrajectory(data, start, end, initial, ts, ws)
    requires t in ts && i < |data|
    ensures data[i].date.day == t.recurringDay ==> RecurringEvent(t) in data[i].events
    ensures DaysInMonth(data[i].date.year, data[i].date.month) < t.recurringDay
            ==> t !in RecurringForDay(ts, data[i].date)
  {
    var d := data[i].date;
    var fired := RecurringForDay(ts, d);
    if d.day == t.recurringDay {
      assert t in fired;
      var k :| 0 <= k < |fired| && fired[k] == t;
      assert data[i].events[k] == RecurringEvent(t);
    }
  }

  /** A what-if event fires exactly on its own calendar day. */
  lemma WhatIfFiresOnItsDateOnly(data: seq<DailyBalance>, start: CalendarDate, end: CalendarDate, initial: int,
                                 ts: seq<RecurringTransaction>, ws: seq<WhatIfEvent>, e: WhatIfEvent, i: nat)
    requires IsTrajectory(data, start, end, initial, ts, ws)
    requires e in ws && i < |data|
    ensures e in WhatIfForDay(ws, data[i].date) <==> data[i].date == e.date
    ensures data[i].date == e.date ==> WhatIfRecord(e) in data[i].events
  {
    var d := data[i].date;
    var fired := WhatIfForDay(ws, d);
    if d == e.date {
      assert e in fired;
      var k :| 0 <= k < |fired| && fired[k] == e;
      assert data[i].events[|RecurringForDay(ts, d)| + k] == WhatIfRecord(e);
    }
  }

  /** On a trajectory whose days fire nothing, every balance is the initial one. */
  lemma {:induction false} QuietTrajectoryIsFlat(data: seq<DailyBalance>, start: CalendarDate, end: CalendarDate,
                                                 initial: int, ts: seq<RecurringTransaction>, ws: seq<WhatIfEvent>, i: nat)
    requires IsTrajectory(data, start, end, initial, ts, ws)
    requires forall j :: 0 <= j < |data| ==> data[j].events == []
    requires i < |data|
    ensures data[i].balance == initial
    decreases i
  {
    if i > 0 {
      QuietTrajectoryIsFlat(data, start, end, initial, ts, ws, i - 1);
    }
  }

  /** With no recurring transactions and no what-if events, the trajectory is flat and eventless. */
  lemma EmptyInputsGiveFlatTrajectory(start: Option<CalendarDate>, end: Option<CalendarDate>, initial: int)
    requires RunSimulation(start, end, initial, [], []).Success?
    ensures var data := RunSimulation(start, end, initial, [], []).value;
      forall i :: 0 <= i < |data| ==> data[i].balance == initial && data[i].events == []
  {
    var data := RunSimulation(start, end, initial, [], []).value;
    forall i | 0 <= i < |data|
      ensures data[i].balance == initial
    {
      QuietTrajectoryIsFlat(data, start.value, end.value, initial, [], [], i);
    }
  }

  lemma {:induction false} CreditsAppend(a: seq<DayEvent>, b: seq<DayEvent>)
    ensures Credits(a + b) == Credits(a) + Credits(b)
    ensures Debits(a + b) == Debits(a) + Debits(b)
    decreases |a|
  {
    if a != [] {
      assert (a + b)[1..] == a[1..] + b;
      CreditsAppend(a[1..], b);
    } else {
      assert a + b == b;
    }
  }

  lemma RecurringEventsAppend(a: seq<RecurringTransaction>, b: seq<RecurringTransaction>)
    ensures RecurringEvents(a + b) == RecurringEvents(a) + RecurringEvents(b)
  {
    assert forall i :: 0 <= i < |a| ==> (a + b)[i] == a[i];
    assert forall i :: 0 <= i < |b| ==> (a + b)[|a| + i] == b[i];
  }

  /** A transfer-typed recurring transaction adds an event to its days but neither credits nor debits. */
  lemma TransferAddsNoCreditOrDebit(ts: seq<RecurringTransaction>, ws: seq<WhatIfEvent>,
                                    t: RecurringTransaction, d: CalendarDate)
    requires t.transactionType == Transfer
    ensures Credits(DayEvents(ts + [t], ws, d)) == Credits(DayEvents(ts, ws, d))
    ensures Debits(DayEvents(ts + [t], ws, d)) == Debits(DayEvents(ts, ws, d))
    ensures |DayEvents(ts + [t], ws, d)| == |DayEvents(ts, ws, d)| + (if RecurringFires(t, d) then 1 else 0)
  {
    var before := RecurringEvents(RecurringForDay(ts, d));
    var extra := RecurringEvents(RecurringForDay([t], d));
    var wf := WhatIfRecords(WhatIfForDay(ws, d));
    RecurringForDayAppend(ts, [t], d);
    RecurringEventsAppend(RecurringForDay(ts, d), RecurringForDay([t], d));
    assert DayEvents(ts + [t], ws, d) == before + extra + wf;
    assert DayEvents(ts, ws, d) == before + wf;
    if RecurringFires(t, d) {
      assert extra == [RecurringEvent(t)];
      assert extra[0].transactionType == Transfer && extra[1..] == [];
      assert Credits(extra) == Credits([]) && Debits(extra) == Debits([]);
    } else {
      assert extra == [];
    }
    CreditsAppend(before + extra, wf);
    CreditsAppend(before, extra);
    CreditsAppend(before, wf);
  }

  /** Selecting what-if records distributes over concatenation. */
  lemma WhatIfRecordsAppend(a: seq<WhatIfEvent>, b: seq<WhatIfEvent>)
    ensures WhatIfRecords(a + b) == WhatIfRecords(a) + WhatIfRecords(b)
  {
    assert forall i :: 0 <= i < |a| ==> (a + b)[i] == a[i];
    assert forall i :: 0 <= i < |b| ==> (a + b)[|a| + i] == b[i];
  }

  /** A transfer-typed what-if event adds an event to its date but neither credits nor debits. */
  lemma TransferEventAddsNoCreditOrDebit(ts: seq<RecurringTransaction>, ws: seq<WhatIfEvent>,
                                         e: WhatIfEvent, d: CalendarDate)
    requires e.transactionType == Transfer
    ensures Credits(DayEvents(ts, ws + [e], d)) == Credits(DayEvents(ts, ws, d))
    ensures Debits(DayEvents(ts, ws + [e], d)) == Debits(DayEvents(ts, ws, d))
    ensures |DayEvents(ts, ws + [e], d)| == |DayEvents(ts, ws, d)| + (if WhatIfFires(e, d) then 1 else 0)
  {
    var rec := RecurringEvents(RecurringForDay(ts, d));
    var before := WhatIfRecords(WhatIfForDay(ws, d));
    var extra := WhatIfRecords(WhatIfForDay([e], d));
    WhatIfForDayAppend(ws, [e], d);
    WhatIfRecordsAppend(WhatIfForDay(ws, d), WhatIfForDay([e], d));
    assert DayEvents(ts, ws + [e], d) == rec + before + extra;
    assert DayEvents(ts, ws, d) == rec + before;
    if WhatIfFires(e, d) {
      assert extra == [WhatIfRecord(e)];
      assert extra[0].transactionType == Transfer && extra[1..] == [];
      assert Credits(extra) == Credits([]) && Debits(extra) == Debits([]);
    } else {
      assert extra == [];
    }
    CreditsAppend(rec + before, extra);
  }

  /**
    Two trajectories over the same range and initial balance, whose inputs
    give every day the same credits and debits, have the same dates and
    balances.
   */
  lemma {:induction false} SameFlowsSameBalancesAt(a: seq<DailyBalance>, b: seq<DailyBalance>,
                                                   start: CalendarDate, end: CalendarDate, initial: int,
                                                   ts: seq<RecurringTransaction>, ws: seq<WhatIfEvent>,
                                                   ts2: seq<RecurringTransaction>, ws2: seq<WhatIfEvent>, i: nat)
    requires IsTrajectory(a, start, end, initial, ts, ws)
    requires IsTrajectory(b, start, end, initial, ts2, ws2)
    requires forall d: CalendarDate :: Credits(DayEvents(ts, ws, d)) == Credits(DayEvents(ts2, ws2, d))
    requires forall d: CalendarDate :: Debits(DayEvents(ts, ws, d)) == Debits(DayEvents(ts2, ws2, d))
    requires i < |a|
    ensures a[i].date == b[i].date && a[i].balance == b[i].balance
    decreases i
  {
    if i > 0 {
      SameFlowsSameBalancesAt(a, b, start, end, initial, ts, ws, ts2, ws2, i - 1);
    }
  }

  /**
    Adding a transfer-typed recurring transaction leaves the outcome and every
    balance unchanged; it only shows up as an event on the days it fires.
   */
  lemma TransferItemLeavesBalancesUnchanged(start: Option<CalendarDate>, end: Option<CalendarDate>, initial: int,
                                            ts: seq<RecurringTransaction>, ws: seq<WhatIfEvent>, t: RecurringTransaction)
    requires t.transactionType == Transfer
    ensures var with := RunSimulation(start, end, initial, ts + [t], ws);
      var without := RunSimulation(start, end, initial, ts, ws);
      && with.Success? == without.Success?
      && (with.Failure? ==> with == without)
      && (with.Success? ==>
            && |with.value| == |without.value|
            && forall i :: 0 <= i < |with.value| ==>
                 && with.value[i].date == without.value[i].date
                 && with.value[i].balance == without.value[i].balance
                 && (RecurringFires(t, with.value[i].date) ==> RecurringEvent(t) in with.value[i].events))
  {
    var with := RunSimulation(start, end, initial, ts + [t], ws);
    var without := RunSimulation(start, end, initial, ts, ws);
    if with.Success? {
      forall d: CalendarDate
        ensures Credits(DayEvents(ts + [t], ws, d)) == Credits(DayEvents(ts, ws, d))
        ensures Debits(DayEvents(ts + [t], ws, d)) == Debits(DayEvents(ts, ws, d))
      {
        TransferAddsNoCreditOrDebit(ts, ws, t, d);
      }
      forall i | 0 <= i < |with.value|
        ensures with.value[i].date == without.value[i].date
        ensures with.value[i].balance == without.value[i].balance
        ensures RecurringFires(t, with.value[i].date) ==> RecurringEvent(t) in with.value[i].events
      {
        SameFlowsSameBalancesAt(with.value, without.value, start.value, end.value, initial, ts + [t], ws, ts, ws, i);
        RecurringFiresOnItsDayOnly(with.value, start.value, end.value, initial, ts + [t], ws, t, i);
      }
    }
  }

  /**
    Adding a transfer-typed what-if event leaves the outcome and every balance
    unchanged; it only shows up as an event on its date.
   */
  lemma TransferEventLeavesBalancesUnchanged(start: Option<CalendarDate>, end: Option<CalendarDate>, initial: int,
                                             ts: seq<RecurringTransaction>, ws: seq<WhatIfEvent>, e: WhatIfEvent)
    requires e.transactionType == Transfer
    ensures var with := RunSimulation(start, end, initial, ts, ws + [e]);
      var without := RunSimulation(start, end, initial, ts, ws);
      && with.Success? == without.Success?
      && (with.Failure? ==> with == without)
      && (with.Success? ==>
            && |with.value| == |without.value|
            && forall i :: 0 <= i < |with.value| ==>
                 && with.value[i].date == without.value[i].date
                 && with.value[i].balance == without.value[i].balance
                 && (with.value[i].date == e.date ==> WhatIfRecord(e) in with.value[i].events))
  {
    var with := RunSimulation(start, end, initial, ts, ws + [e]);
    var without := RunSimulation(start, end, initial, ts, ws);
    if with.Success? {
      forall d: CalendarDate
        ensures Credits(DayEvents(ts, ws + [e], d)) == Credits(DayEvents(ts, ws, d))
        ensures Debits(DayEvents(ts, ws + [e], d)) == Debits(DayEvents(ts, ws, d))
      {
        TransferEventAddsNoCreditOrDebit(ts, ws, e, d);
      }
      forall i | 0 <= i < |with.value|
        ensures with.value[i].date == without.value[i].date
        ensures with.value[i].balance == without.value[i].balance
        ensures with.value[i].date == e.date ==> WhatIfRecord(e) in with.value[i].events
      {
        SameFlowsSameBalancesAt(with.value, without.value, start.value, end.value, initial, ts, ws + [e], ts, ws, i);
        WhatIfFiresOnItsDateOnly(with.value, start.value, end.value, initial, ts, ws + [e], e, i);
      }
    }
  }

  /** Scenario: a recurring expense of 200 on day 2 over 2024-01-01..2024-01-03 from 1000. */
  lemma RecurringExpenseScenario()
    ensures RunSimulation(Some(Date(2024, 1, 1)), Some(Date(2024, 1, 3)), 1000,
                          [RecurringTransaction("rent", 200, Expense, 2, None)], [])
            == Success([
                 DailyBalance(Date(2024, 1, 1), 1000, []),
                 DailyBalance(Date(2024, 1, 2), 800, [DayEvent(Recurring, RecurringFallback, 200, Expense)]),
                 DailyBalance(Date(2024, 1, 3), 800, [])])
  {
    var rent := RecurringTransaction("rent", 200, Expense, 2, None);
    var (d1, d2, d3) := (Date(2024, 1, 1), Date(2024, 1, 2), Date(2024, 1, 3));
    var paid := DayEvent(Recurring, RecurringFallback, 200, Expense);
    assert DayEvents([rent], [], d1) == [] && DayEvents([rent], [], d3) == [];
    assert RecurringForDay([rent], d2) == [rent];
    assert DayEvents([rent], [], d2) == [paid];
    assert Walk(NextDay(d3), d3, 800, [rent], []) == [];
    assert Walk(d3, d3, 800, [rent], []) == [DailyBalance(d3, 800, [])];
    assert Walk(d2, d3, 1000, [rent], []) == [DailyBalance(d2, 800, [paid]), DailyBalance(d3, 800, [])];
    assert Walk(d1, d3, 1000, [rent], [])
           == [DailyBalance(d1, 1000, []), DailyBalance(d2, 800, [paid]), DailyBalance(d3, 800, [])];
  }

  /**
    Scenario: a what-if income of 500 on 2024-01-03 with an empty description,
    which counts as absent and is recorded with the default description.
   */
  lemma WhatIfIncomeScenario()
    ensures RunSimulation(Some(Date(2024, 1, 1)), Some(Date(2024, 1, 3)), 1000,
                          [], [WhatIfEvent("bonus", Date(2024, 1, 3), 500, Income, Some(""))])
            == Success([
                 DailyBalance(Date(2024, 1, 1), 1000, []),
                 DailyBalance(Date(2024, 1, 2), 1000, []),
                 DailyBalance(Date(2024, 1, 3), 1500, [DayEvent(WhatIf, WhatIfFallback, 500, Income)])])
  {
    var bonus := WhatIfEvent("bonus", Date(2024, 1, 3), 500, Income, Some(""));
    var (d1, d2, d3) := (Date(2024, 1, 1), Date(2024, 1, 2), Date(2024, 1, 3));
    var paid := DayEvent(WhatIf, WhatIfFallback, 500, Income);
    assert DayEvents([], [bonus], d1) == [] && DayEvents([], [bonus], d2) == [];
    assert WhatIfForDay([bonus], d3) == [bonus];
    assert DayEvents([], [bonus], d3) == [paid];
    assert Apply(1000, [paid]) == Apply(1500, []);
    assert Walk(NextDay(d3), d3, 1500, [], [bonus]) == [];
    assert Walk(d3, d3, 1000, [], [bonus]) == [DailyBalance(d3, 1500, [paid])];
    assert Walk(d2, d3, 1000, [], [bonus]) == [DailyBalance(d2, 1000, []), DailyBalance(d3, 1500, [paid])];
    assert Walk(d1, d3, 1000, [], [bonus])
           == [DailyBalance(d1, 1000, []), DailyBalance(d2, 1000, []), DailyBalance(d3, 1500, [paid])];
  }

  /**
    Scenario: a recurring expense on day 31 over February 2024, which has 29
    days, never fires; the balance stays flat for the whole month.
   */
  lemma Day31InFebruaryScenario()
    ensures var r := RunSimulation(Some(Date(2024, 2, 1)), Some(Date(2024, 2, 29)), 1000,
                                   [RecurringTransaction("card", 300, Expense, 31, None)], []);
      && r.Success?
      && |r.value| == 29
      && forall i :: 0 <= i < |r.value| ==> r.value[i].balance == 1000 && r.value[i].events == []
  {
    var card := RecurringTransaction("card", 300, Expense, 31, None);
    var (first, last) := (Date(2024, 2, 1), Date(2024, 2, 29));
    var data := RunSimulation(Some(first), Some(last), 1000, [card], []).value;
    TrajectoryCoversRange(data, first, last, 1000, [card], []);
    forall i | 0 <= i < |data|
      ensures data[i].events == []
    {
      var d := data[i].date;
      assert d.year == 2024 && d.month == 2;
      assert RecurringForDay([card], d) == [];
    }
    forall i | 0 <= i < |data|
      ensures data[i].balance == 1000
    {
      QuietTrajectoryIsFlat(data, first, last, 1000, [card], [], i);
    }
    MonthStep(2024, 1);
    MonthStep(2024, 2);
  }

  /**
    Scenario: a recurring expense and a what-if income on the same day are
    recorded recurring first, and the balance reflects both.
   */
  lemma SameDayOrderScenario()
    ensures RunSimulation(Some(Date(2024, 1, 1)), Some(Date(2024, 1, 2)), 1000,
                          [RecurringTransaction("rent", 300, Expense, 2, Some("rent"))],
                          [WhatIfEvent("gift", Date(2024, 1, 2), 500, Income, None)])
            == Success([
                 DailyBalance(Date(2024, 1, 1), 1000, []),
                 DailyBalance(Date(2024, 1, 2), 1200, [DayEvent(Recurring, "rent", 300, Expense),
                                                       DayEvent(WhatIf, WhatIfFallback, 500, Income)])])
  {
    var rent := RecurringTransaction("rent", 300, Expense, 2, Some("rent"));
    var gift := WhatIfEvent("gift", Date(2024, 1, 2), 500, Income, None);
    var (d1, d2) := (Date(2024, 1, 1), Date(2024, 1, 2));
    var both := [DayEvent(Recurring, "rent", 300, Expense), DayEvent(WhatIf, WhatIfFallback, 500, Income)];
    assert DayEvents([rent], [gift], d1) == [];
    assert RecurringForDay([rent], d2) == [rent];
    assert WhatIfForDay([gift], d2) == [gift];
    assert DayEvents([rent], [gift], d2) == both;
    assert Apply(1000, both) == Apply(700, both[1..]) == Apply(1200, []);
    assert Walk(NextDay(d2), d2, 1200, [rent], [gift]) == [];
    assert Walk(d2, d2, 1000, [rent], [gift]) == [DailyBalance(d2, 1200, both)];
    assert Walk(d1, d2, 1000, [rent], [gift]) == [DailyBalance(d1, 1000, []), DailyBalance(d2, 1200, both)];
  }
}

=== FILE: transfers.dfy ===
/**
  Transfers between budget accounts (`createTransfer`).

  The action checks its input in a fixed order: required fields, distinct
  accounts, a positive amount, both accounts existing, enough money in the
  source account. Only then, inside one database transaction, does it move
  the amount from one balance to the other and write one `transfer` record
  for each account. A rejected transfer touches nothing.
 */
module Transfers {
  import opened Common
  import opened Calendar
  import opened Schema

  /** The tables a transfer reads and writes: `budgetAccount` and `transaction`. */
  datatype Store = Store(budgetAccounts: map<AccountId, Account>, transactions: seq<Transaction>)

  datatype TransferInput = TransferInput(
    fromAccountId: AccountId,
    toAccountId: AccountId,
    amount: int,
    date: Option<CalendarDate>,
    description: Option<string>)

  /**
    The rejections of a transfer, in the order they are checked, and the
    database error the `catch` branch reports.
   */
  datatype TransferError = MissingFields | SameAccount | NonPositiveAmount | AccountNotFound | InsufficientBalance
                         | DatabaseError

  /** The outcome of a transfer (no error means success) and the store afterwards. */
  datatype Response = Response(error: Option<TransferError>, store: Store)

  function ErrorMessage(e: TransferError): string
  {
    match e
    case MissingFields => "必須項目が不足しています。"
    case SameAccount => "振替元と振替先の口座が同じです。"
    case NonPositiveAmount => "振替金額は0より大きい値を入力してください。"
    case AccountNotFound => "指定された口座が見つかりません。"
    case InsufficientBalance => "振替元口座の残高が不足しています。"
    case DatabaseError => "データベースエラーが発生しました。"
  }

  /** Every kind of failure carries its own message, so the message tells the caller which one happened. */
  lemma ErrorMessagesDistinct(a: TransferError, b: TransferError)
    ensures ErrorMessage(a) == ErrorMessage(b) <==> a == b
  {
  }

  /** The category every transfer record is filed under. */
  const TransferCategory: string := "transfer"

  /** A falsy field: an empty account id, a zero amount or no date. */
  predicate Missing(input: TransferInput)
  {
    input.fromAccountId == "" || input.toAccountId == "" || input.amount == 0 || input.date.None?
  }

  /** The record written for one side of a transfer. */
  function TransferRecord(input: TransferInput, accountId: AccountId, fallback: string): Transaction
    requires input.date.Some?
  {
    Transaction(input.date.value, input.amount, Transfer, Some(OrDefault(input.description, fallback)),
                accountId, TransferCategory, None, false, None)
  }

  /**
    Moves `input.amount` from one budget account to another and logs both
    sides. The source reads the clock once per balance update, so the debited
    and the credited account get their own `lastUpdated` instants.
   */
  function CreateTransfer(s: Store, input: TransferInput, debitedAt: Timestamp, creditedAt: Timestamp)
    : (r: Response)
    ensures r.error.Some? ==> r.store == s
    ensures r.error.None? <==>
              && !Missing(input) && input.fromAccountId != input.toAccountId && input.amount > 0
              && input.fromAccountId in s.budgetAccounts && input.toAccountId in s.budgetAccounts
              && s.budgetAccounts[input.fromAccountId].balance >= input.amount
    ensures r.error == Some(MissingFields) <==> Missing(input)
    ensures r.error == Some(SameAccount) <==> !Missing(input) && input.fromAccountId == input.toAccountId
    ensures r.error == Some(NonPositiveAmount) <==>
              !Missing(input) && input.fromAccountId != input.toAccountId && input.amount <= 0
    ensures r.error == Some(AccountNotFound) <==>
              && !Missing(input) && input.fromAccountId != input.toAccountId && input.amount > 0
              && (input.fromAccountId !in s.budgetAccounts || input.toAccountId !in s.budgetAccounts)
    ensures r.error == Some(InsufficientBalance) <==>
              && !Missing(input) && input.fromAccountId != input.toAccountId && input.amount > 0
              && input.fromAccountId in s.budgetAccounts && input.toAccountId in s.budgetAccounts
              && s.budgetAccounts[input.fromAccountId].balance < input.amount
    ensures r.error.None? ==>
              var (from, to, amount) := (input.fromAccountId, input.toAccountId, input.amount);
              var (before, after) := (s.budgetAccounts, r.store.budgetAccounts);
              && from in before && to in before && from != to && 0 < amount <= before[from].balance
              && after.Keys == before.Keys
              && after[from] == Account(before[from].name, before[from].balance - amount, debitedAt)
              && after[to] == Account(before[to].name, before[to].balance + amount, creditedAt)
              && (forall k :: k in before && k != from && k != to ==> after[k] == before[k])
              && input.date.Some?
              && r.store.transactions == s.transactions + [
                   Transaction(input.date.value, amount, Transfer,
                               Some(OrDefault(input.description, "振替先: " + before[to].name)),
                               from, TransferCategory, None, false, None),
                   Transaction(input.date.value, amount, Transfer,
                               Some(OrDefault(input.description, "振替元: " + before[from].name)),
                               to, TransferCategory, None, false, None)]
  {
    var (from, to, amount) := (input.fromAccountId, input.toAccountId, input.amount);
    if Missing(input) then Response(Some(MissingFields), s)
    else if from == to then Response(Some(SameAccount), s)
    else if amount <= 0 then Response(Some(NonPositiveAmount), s)
    else if from !in s.budgetAccounts || to !in s.budgetAccounts then Response(Some(AccountNotFound), s)
    else
      var source := s.budgetAccounts[from];
      var target := s.budgetAccounts[to];
      if source.balance < amount then Response(Some(InsufficientBalance), s)
      else
        var accounts := s.budgetAccounts[from := Account(source.name, source.balance - amount, debitedAt)]
                                        [to := Account(target.name, target.balance + amount, creditedAt)];
        var log := s.transactions + [TransferRecord(input, from, "振替先: " + target.name),
                                     TransferRecord(input, to, "振替元: " + source.name)];
        Response(None, Store(accounts, log))
  }

  /** A transfer never changes the sum of all budget account balances. */
  lemma TransferConservesTotal(s: Store, input: TransferInput, debitedAt: Timestamp, creditedAt: Timestamp)
    ensures TotalBalance(CreateTransfer(s, input, debitedAt, creditedAt).store.budgetAccounts)
            == TotalBalance(s.budgetAccounts)
  {
    var r := CreateTransfer(s, input, debitedAt, creditedAt);
    if r.error.None? {
      var (from, to) := (input.fromAccountId, input.toAccountId);
      var before := s.budgetAccounts;
      var source := before[from];
      var target := before[to];
      var middle := before[from := Account(source.name, source.balance - input.amount, debitedAt)];
      TotalBalanceUpdate(before, from, middle[from]);
      TotalBalanceUpdate(middle, to, Account(target.name, target.balance + input.amount, creditedAt));
      assert r.store.budgetAccounts == middle[to := Account(target.name, target.balance + input.amount, creditedAt)];
    }
  }

  /** A budget account that is not overdrawn before a transfer is not overdrawn after it. */
  lemma TransferKeepsBalancesNonNegative(s: Store, input: TransferInput,
                                         debitedAt: Timestamp, creditedAt: Timestamp)
    ensures var after := CreateTransfer(s, input, debitedAt, creditedAt).store.budgetAccounts;
      forall k :: k in s.budgetAccounts && s.budgetAccounts[k].balance >= 0 ==> k in after && after[k].balance >= 0
  {
  }

  /** A source balance exactly equal to the amount is enough, and is left at zero. */
  lemma TransferOfWholeBalance(s: Store, input: TransferInput, debitedAt: Timestamp, creditedAt: Timestamp)
    requires !Missing(input) && input.fromAccountId != input.toAccountId
    requires input.fromAccountId in s.budgetAccounts && input.toAccountId in s.budgetAccounts
    requires s.budgetAccounts[input.fromAccountId].balance == input.amount > 0
    ensures CreateTransfer(s, input, debitedAt, creditedAt).error.None?
    ensures CreateTransfer(s, input, debitedAt, creditedAt).store.budgetAccounts[input.fromAccountId].balance == 0
  {
  }

  /**
    `createTransfer` as the code stands. `redirect` throws an `Error` inside the
    `try` once the database transaction has committed, and the `catch` has no
    re-throw for it, so every committed transfer is reported as a database
    error. The writes stay committed.
   */
  function CreateTransferAsWritten(s: Store, input: TransferInput, debitedAt: Timestamp, creditedAt: Timestamp)
    : (r: Response)
    ensures r.error.Some?
    ensures r.error == Some(DatabaseError) <==> CreateTransfer(s, input, debitedAt, creditedAt).error.None?
    ensures r.store == CreateTransfer(s, input, debitedAt, creditedAt).store
    ensures CreateTransfer(s, input, debitedAt, creditedAt).error.Some?
            ==> r == CreateTransfer(s, input, debitedAt, creditedAt)
  {
    var committed := CreateTransfer(s, input, debitedAt, creditedAt);
    if committed.error.None? then Response(Some(DatabaseError), committed.store) else committed
  }

  /**
    Whenever the transfer goes through, the code as it stands moves the money
    and writes both records, yet reports the database-error message.
   */
  lemma AsWrittenReportsCommittedTransferAsFailure(s: Store, input: TransferInput,
                                                  debitedAt: Timestamp, creditedAt: Timestamp)
    requires !Missing(input) && input.fromAccountId != input.toAccountId && input.amount > 0
    requires input.fromAccountId in s.budgetAccounts && input.toAccountId in s.budgetAccounts
    requires s.budgetAccounts[input.fromAccountId].balance >= input.amount
    ensures var r := CreateTransferAsWritten(s, input, debitedAt, creditedAt);
      && r.error == Some(DatabaseError)
      && ErrorMessage(r.error.value) == "データベースエラーが発生しました。"
      && |r.store.transactions| == |s.transactions| + 2
      && r.store.budgetAccounts[input.fromAccountId].balance
         == s.budgetAccounts[input.fromAccountId].balance - input.amount
  {
  }

  /** A concrete case: 300 from an account holding 1000 moves the money and still reports failure. */
  lemma CommittedTransferReportedAsDatabaseError()
    ensures var s := Store(map["bank" := Account("Bank", 1000, 0), "wallet" := Account("Wallet", 0, 0)], []);
      var r := CreateTransferAsWritten(s, TransferInput("bank", "wallet", 300, Some(Date(2024, 1, 5)), None), 1, 2);
      && r.error == Some(DatabaseError)
      && r.store.budgetAccounts["bank"].balance == 700
      && r.store.budgetAccounts["wallet"].balance == 300
      && |r.store.transactions| == 2
  {
  }
}
